=== FILE: README.md ===
# Choropleth styling of the geostrat map view

A Dafny model of the styling layer of geostrat's map component: the part of
`src/app/app.component.ts` that turns a US state's population density into a
fill colour, builds the polygon style, emphasises a hovered state, writes the
info-panel text and generates the legend. The map library, the UI framework and
the data fetch around it are not modelled.

Modules (one file each):

- `Options` (`options.dfy`): `Option`, a value that may be absent: an `undefined` density, null properties, the style callback's TypeError, or text that does not parse.
- `Decimal` (`decimal.dfy`): decimal rendering of integers, as string concatenation renders the legend's grades, with a parser that undoes it.
- `ColorScale` (`color_scale.dfy`): the threshold classifier `GetColor`, written as the source's nested conditional, and an independent reference definition of the same scale. The reference is `BucketIndex`, the number of breakpoints a density strictly exceeds. It is used as an index into the eight-colour `Palette`, listed lightest first.
- `FeatureStyle` (`feature_style.dfy`): the style record, the initial style of a feature, and the hover emphasis. The emphasis is a partial record merged over the base style.
- `InfoPanel` (`info_panel.dfy`): the panel text and a parser that reads it back. It also shows how the text follows a serialized stream of mouse events.
- `Legend` (`legend.dfy`): the legend's own copy of the grades, the swatch and label of each row, and the loop that appends the rows.

Densities are `Option<real>`. In JavaScript a comparison with `undefined` is
false, so a missing density falls through every test to the lightest colour.
`Above` models this, and `GetColor` takes the option directly.

The legend is modelled over any list of mathematical integers (see "## Left out" for
JavaScript's number limits). `grades[i + 1]` is read with
JavaScript truthiness: an index past the end reads `undefined`, and the number 0 is falsy.
The general lemmas hold for strictly increasing grades that start at a
non-negative value. The concrete list `[0, 10, 20, 50, 100, 200, 500, 1000]`
is one such list.

## Model

| member | source | states |
|---|---|---|
| ColorScale.GetColor | src/app/app.component.ts:35-51 | The classifier is total: every density, present or missing, gets one of the eight palette colours |
| ColorScale.GetColorIsPaletteAtBucket | src/app/app.component.ts:35-51 | The nested conditional agrees with the reference scale for every input: the colour is the palette entry at the number of breakpoints the density strictly exceeds |
| ColorScale.BucketOfValue | src/app/app.component.ts:36-49 | Both directions: a value is in bucket k exactly when it is strictly above breakpoint k-1 and at or below breakpoint k, so a value equal to a breakpoint lands in the lower bucket |
| ColorScale.CountBelowSorted | src/app/app.component.ts:36-49 | On sorted breakpoints, a value bracketed between the k-th and the next breakpoint exceeds exactly k of them |
| ColorScale.CountBelowBrackets | src/app/app.component.ts:36-49 | Conversely, the number of breakpoints a value exceeds always brackets the value between consecutive breakpoints |
| ColorScale.ColorMonotone | src/app/app.component.ts:35-51 | A larger density never gets a lighter colour: the bucket index is non-decreasing in the density |
| ColorScale.ColorDeterminesBucket | src/app/app.component.ts:35-51 | Two densities get the same colour exactly when they fall in the same bucket |
| ColorScale.PaletteDistinct | src/app/app.component.ts:36-50 | The eight colours are pairwise distinct |
| ColorScale.DefaultBucket | src/app/app.component.ts:48-50 | The default colour #FFEDA0 is given exactly to a missing density and to values at or below 10, including 0 and negatives |
| ColorScale.MissingIsLightest | src/app/app.component.ts:36-50 | A missing density gets the lightest colour and is in a bucket no higher than any present density's |
| ColorScale.BoundaryExamples | src/app/app.component.ts:36-50 | 1001 is #800026, 1000 is #BD0026, and 10, 0 and -5 are #FFEDA0 |
| FeatureStyle.PropertiesStyle | src/app/app.component.ts:53-62 | The style drawn from a properties record has the palette colour of its density's bucket as fill; weight 2, opacity 1, stroke white, dash "3" and fill opacity 0.7 are fixed |
| FeatureStyle.StyleFor | src/app/app.component.ts:53-62 | The style callback yields no style exactly when the feature's properties are null (reading `density` of null throws); otherwise the fill is the density bucket's palette colour and the other five fields are the fixed ones |
| FeatureStyle.StyleDependsOnlyOnDensity | src/app/app.component.ts:53-62 | Two features get the same style outcome exactly when both lack properties or both have densities in the same bucket; the name plays no part |
| FeatureStyle.Highlighted | src/app/app.component.ts:71-76 | The hover style keeps the fill colour and stroke opacity of the base and sets weight 5, stroke #666, no dash and fill opacity 0.7 |
| FeatureStyle.Apply | src/app/app.component.ts:71-76 | The `setStyle` merge of a partial style: the empty override leaves the base unchanged, every field the override sets wins whatever the base holds, and the merge changes nothing exactly when the override already agrees with the base |
| FeatureStyle.ApplyIdempotent | src/app/app.component.ts:71-76 | Merging the same partial style twice gives the same style as merging it once |
| FeatureStyle.HighlightKeepsDensityColor | src/app/app.component.ts:53-76 | A hovered feature keeps its density colour, and two hovered features look alike exactly when their densities share a bucket |
| FeatureStyle.HighlightChangesStrokeOnly | src/app/app.component.ts:53-76 | Hovering leaves fill colour, fill opacity and stroke opacity as they were and changes weight, stroke colour and dash pattern |
| InfoPanel.InfoText | src/app/app.component.ts:124-137 | The heading is always present; without properties the prompt follows it; with properties the text is, position by position, "<b>", the name, "</b><br />", the density and the unit " people / mi<sup>2</sup>" |
| InfoPanel.ParseInfoText | src/app/app.component.ts:128-136 | Round trip: reading the panel text back gives "no properties" for the prompt and the same name and density for a feature whose name holds no '<' |
| InfoPanel.InfoTextInjective | src/app/app.component.ts:128-136 | Different properties with markup-free names never produce the same panel text |
| InfoPanel.Replay | src/app/app.component.ts:79-85 | The panel markup after a stream of mouse events always starts with the heading; each event's effect (`Step`) is to show the hovered feature on mouseover and the prompt on mouseout, and to leave the panel as it was on a click |
| InfoPanel.ReplayIsPanelText | src/app/app.component.ts:79-85 | Whatever the stream of mouse events, the panel shows either the prompt or the text of a feature hovered at some point of the stream |
| InfoPanel.ReplayStartsWithPrompt | src/app/app.component.ts:117-121 | When the panel is added to the map, before any event, it shows the heading and the prompt, which read back as "no properties" |
| InfoPanel.ReplayShowsLastHover | src/app/app.component.ts:79-85 | After a hover on a feature followed only by clicks, the panel shows that feature's name and density: mouseover writes the feature's text (`Step`) and a click does not touch the panel |
| InfoPanel.ReplayShowsPrompt | src/app/app.component.ts:82-85 | When every hover has been followed by a leave, or there has been no hover since the panel was added, the panel shows the prompt |
| Decimal.IntToString | src/app/app.component.ts:154-156 | A grade concatenated into the legend text is rendered as canonical decimal digits (no leading zero), with a leading '-' exactly for negative grades |
| Decimal.IntToStringRoundTrip | src/app/app.component.ts:154-156 | A grade rendered as decimal text reads back as the same number |
| Decimal.IntToStringInjective | src/app/app.component.ts:154-156 | Distinct grades render as distinct text |
| Legend.RenderLegend | src/app/app.component.ts:149-158 | The loop appends every row's markup exactly once and in grade order |
| Legend.Rows | src/app/app.component.ts:149-157 | There is one row per grade; row i (`Row`, the whole string appended at :150-157) starts with the swatch markup of colour `Swatch(i)` |
| Legend.Swatch | src/app/app.component.ts:152 | The swatch colour of a row, `getColor(grades[i] + 1)`, is always one of the eight palette colours |
| Legend.GradesMatchThresholds | src/app/app.component.ts:145 | The legend's copy of the grades is the classifier's breakpoints with 0 in front |
| Legend.SwatchValueBucket | src/app/app.component.ts:145-152 | For any strictly increasing integer grades, the value one above grade i exceeds exactly i of the grades after the first |
| Legend.SwatchesMatchPalette | src/app/app.component.ts:149-152 | Legend and classifier agree: swatch i is the i-th palette colour, so the eight swatches are pairwise distinct |
| Legend.LabelRangesMatchClassifier | src/app/app.component.ts:145-157 | Every density strictly above a row's grade and at or below the next grade is drawn in that row's swatch colour; on the last row, every density above 1000 is |
| Legend.LabelShape | src/app/app.component.ts:154-157 | For increasing grades from a non-negative start, every row except the last shows "g_i&ndash;g_{i+1}" and a line break, and the last row shows "g_i+"; this is the label part (`Label`) of each row |
| Legend.LegendLabels | src/app/app.component.ts:149-157 | The legend has 8 rows; the labels (`Label`) of rows 0 to 6 read "g_i&ndash;g_{i+1}" and a line break, and the last label reads "1000+" |
| Legend.LegendRowsText | src/app/app.component.ts:149-157 | Each of the 8 rows the loop appends (`Rows(Grades)`) is the swatch markup of palette colour i, then `"></i> `, then the label: "g_i&ndash;g_{i+1}<br>" for rows 0 to 6 and "1000+" for the last, whose swatch is #800026 |

## Left out

- Map construction, the tile layer, its URL, zoom and attribution (src/app/app.component.ts:19-28): these are rendering by the map library.
- The HTTP fetch of `assets/us-states.json` and its subscription (src/app/app.component.ts:30-33): this is I/O and asynchronous. The model starts from the feature properties.
- Adding the GeoJSON layers, `bringToFront`, `resetStyle`, `fitBounds` and the event binding through `layer.on` (src/app/app.component.ts:34, 64, 78, 83, 90, 105-115): these are map-library calls whose meaning this code does not define. `setStyle` is modelled as a merge of a partial record (`FeatureStyle.Apply`). Whether leaving a state restores its initial style depends on `resetStyle`, so the model makes no claim about it. A click only moves the map, so in `InfoPanel.Step` it leaves the panel as it was.
- DOM creation and `innerHTML` (src/app/app.component.ts:118, 144, 150): only the markup strings are modelled. When `innerHTML +=` runs, the browser parses the markup and serialises it again, so `&ndash;` comes back as U+2013. That step is not modelled.
- IEEE-754 numbers: densities are mathematical reals, so NaN and infinities are left out. A NaN density would fail every `>` test, as `undefined` does, and would get the default colour.
- StyleFor: a null `properties` member, which GeoJSON allows, makes `style` throw a TypeError when it is called on such a feature during the layer construction at src/app/app.component.ts:64. The model records this as `None`. It does not model that the throw skips everything after it, from line 64 to line 163: the styled and interactive layers, the info panel and the legend.
- Grades and densities are mathematical integers and reals, not IEEE-754 doubles. JavaScript renders integral numbers of magnitude 1e21 or more in exponent form, and `grades[i] + 1` rounds back to `grades[i]` from 2^53 on. Neither is modelled. `Decimal.IntToString` and the general `Legend` lemmas therefore match JavaScript only for grades below those bounds; the legend's own grades are at most 1000.
- InfoPanel.InfoProps: the panel's record is separate from `FeatureStyle.Properties`, although the source passes the same `feature.properties` object to both. A feature without a density is coloured as `None`, and its panel text shows the word `undefined` where the density goes (src/app/app.component.ts:134). The model leaves that text to the caller and does not tie it to `None`.
- The info panel takes a feature's density as text (`InfoProps.density`), matching the `density: string` type the panel's parameter declares. JavaScript's rendering of a non-integral number is not modelled. The legend's grades are integers; `Decimal` renders them.
- InfoPanel.ParseInfoText: the round trip is stated only for names without '<'. A name containing markup can make two different records produce the same panel text, because the text does not escape the name.
- A second dataset variant with other property keys (`ADMIN`, a population value) is not part of this model. The file modelled here reads `name` and `density`.

=== FILE: color_scale.dfy ===
/** The choropleth colour scale: a threshold classifier from a feature's
    density to one of eight fill colours, darkest for the densest. */
module ColorScale {
  import opened Options

  /** The classifier's breakpoints, ascending. A value strictly above
      Thresholds[k] is darker than a value at or below it. */
  const Thresholds: seq<int> := [10, 20, 50, 100, 200, 500, 1000]

  /** The eight fill colours, lightest (bucket 0) to darkest (bucket 7). */
  const Palette: seq<string> :=
    ["#FFEDA0", "#FED976", "#FEB24C", "#FD8D3C", "#FC4E2A", "#E31A1C", "#BD0026", "#800026"]

  /** The colour used for everything at or below the lowest breakpoint,
      and for a missing density. */
  const DefaultColor: string := "#FFEDA0"

  /** JavaScript's `d > k` for a density that may be `undefined`:
      a comparison with `undefined` is false. */
  predicate Above(d: Option<real>, k: real) {
    d.Some? && d.value > k
  }

  /** The classifier as written: strict `>` tests from the highest breakpoint
      down, falling through to the lightest colour. */
  function GetColor(d: Option<real>): (c: string)
    ensures c in Palette
  {
    if Above(d, 1000.0) then "#800026"
    else if Above(d, 500.0) then "#BD0026"
    else if Above(d, 200.0) then "#E31A1C"
    else if Above(d, 100.0) then "#FC4E2A"
    else if Above(d, 50.0) then "#FD8D3C"
    else if Above(d, 20.0) then "#FEB24C"
    else if Above(d, 10.0) then "#FED976"
    else DefaultColor
  }

  predicate Sorted(ts: seq<int>) {
    forall i, j :: 0 <= i < j < |ts| ==> ts[i] <= ts[j]
  }

  predicate StrictlyIncreasing(ts: seq<int>) {
    forall i, j :: 0 <= i < j < |ts| ==> ts[i] < ts[j]
  }

  /** The number of breakpoints strictly below v. */
  function CountBelow(ts: seq<int>, v: real): (n: nat)
    ensures n <= |ts|
  {
    if |ts| == 0 then 0
    else (if (ts[0] as real) < v then 1 else 0) + CountBelow(ts[1..], v)
  }

  /** Reference definition of the bucket a density falls in: how many of the
      classifier's breakpoints it strictly exceeds; a missing density exceeds none. */
  function BucketIndex(d: Option<real>): (b: nat)
    ensures b < |Palette|
  {
    match d
    case None => 0
    case Some(v) => CountBelow(Thresholds, v)
  }

  /** On sorted breakpoints, v exceeds exactly k of them when it lies above
      the k-th smallest and at or below the next one. */
  lemma {:induction false} CountBelowSorted(ts: seq<int>, v: real, k: nat)
    requires Sorted(ts)
    requires k <= |ts|
    requires k == 0 || (ts[k - 1] as real) < v
    requires k == |ts| || v <= ts[k] as real
    ensures CountBelow(ts, v) == k
  {
    if |ts| > 0 {
      var tail := ts[1..];
      assert Sorted(tail);
      if k == 0 {
        assert v <= ts[0] as real;
        if |tail| > 0 {
          assert ts[0] <= tail[0];
        }
        CountBelowSorted(tail, v, 0);
      } else {
        assert ts[0] <= ts[k - 1];
        assert k - 1 == 0 || tail[k - 2] == ts[k - 1];
        assert k - 1 == |tail| || tail[k - 1] == ts[k];
        CountBelowSorted(tail, v, k - 1);
      }
    }
  }

  /** The converse: whatever CountBelow returns satisfies the bracketing. */
  lemma {:induction false} CountBelowBrackets(ts: seq<int>, v: real)
    requires Sorted(ts)
    ensures var k := CountBelow(ts, v);
      && (k == 0 || (ts[k - 1] as real) < v)
      && (k == |ts| || v <= ts[k] as real)
  {
    if |ts| > 0 {
      var tail := ts[1..];
      assert Sorted(tail);
      CountBelowBrackets(tail, v);
      var k' := CountBelow(tail, v);
      if (ts[0] as real) < v {
        assert k' == 0 || tail[k' - 1] == ts[k'];
        assert k' == |tail| || tail[k'] == ts[k' + 1];
      }
    }
  }

  /** More breakpoints are exceeded by a larger value. */
  lemma {:induction false} CountBelowMonotone(ts: seq<int>, a: real, b: real)
    requires a <= b
    ensures CountBelow(ts, a) <= CountBelow(ts, b)
  {
    if |ts| > 0 {
      CountBelowMonotone(ts[1..], a, b);
    }
  }

  lemma ThresholdsSorted()
    ensures StrictlyIncreasing(Thresholds)
    ensures Sorted(Thresholds)
  {
  }

  /** The nested conditional and the reference definition agree everywhere:
      the classifier returns the palette colour of the density's bucket. */
  lemma GetColorIsPaletteAtBucket(d: Option<real>)
    ensures GetColor(d) == Palette[BucketIndex(d)]
  {
    if d.Some? {
      var v := d.value;
      ThresholdsSorted();
      var k: nat :=
        if v > 1000.0 then 7 else if v > 500.0 then 6 else if v > 200.0 then 5
        else if v > 100.0 then 4 else if v > 50.0 then 3 else if v > 20.0 then 2
        else if v > 10.0 then 1 else 0;
      CountBelowSorted(Thresholds, v, k);
    }
  }

  /** Exactly which values land in bucket k: those strictly above the k-th
      breakpoint from below and at or below the next one. A value equal to a
      breakpoint lands in the lower bucket. */
  lemma BucketOfValue(v: real, k: nat)
    requires k < |Palette|
    ensures BucketIndex(Some(v)) == k <==>
      && (k == 0 || (Thresholds[k - 1] as real) < v)
      && (k == |Thresholds| || v <= Thresholds[k] as real)
  {
    ThresholdsSorted();
    CountBelowBrackets(Thresholds, v);
    if (k == 0 || (Thresholds[k - 1] as real) < v) && (k == |Thresholds| || v <= Thresholds[k] as real) {
      CountBelowSorted(Thresholds, v, k);
    }
  }

  /** The palette's eight colours are pairwise distinct, so the bucket can
      be read back from the colour. */
  lemma PaletteDistinct()
    ensures forall i, j :: 0 <= i < j < |Palette| ==> Palette[i] != Palette[j]
  {
  }

  /** The colour of a density determines its bucket. */
  lemma ColorDeterminesBucket(a: Option<real>, b: Option<real>)
    ensures GetColor(a) == GetColor(b) <==> BucketIndex(a) == BucketIndex(b)
  {
    GetColorIsPaletteAtBucket(a);
    GetColorIsPaletteAtBucket(b);
    PaletteDistinct();
  }

  /** Monotonicity: a larger density is never given a lighter colour. */
  lemma ColorMonotone(a: real, b: real)
    requires a <= b
    ensures BucketIndex(Some(a)) <= BucketIndex(Some(b))
    ensures GetColor(Some(a)) == Palette[BucketIndex(Some(a))]
    ensures GetColor(Some(b)) == Palette[BucketIndex(Some(b))]
  {
    CountBelowMonotone(Thresholds, a, b);
    GetColorIsPaletteAtBucket(Some(a));
    GetColorIsPaletteAtBucket(Some(b));
  }

  /** A missing density gets the lightest colour, as light as any present one. */
  lemma MissingIsLightest(d: Option<real>)
    ensures GetColor(None) == Palette[0]
    ensures BucketIndex(None) <= BucketIndex(d)
  {
  }

  /** The default colour is given exactly to a missing density and to values
      at or below 10, including zero and negatives. */
  lemma DefaultBucket(d: Option<real>)
    ensures GetColor(d) == DefaultColor <==> d.None? || d.value <= 10.0
  {
  }

  /** The boundary cases: breakpoints are strict. */
  lemma BoundaryExamples()
    ensures GetColor(Some(1001.0)) == "#800026"
    ensures GetColor(Some(1000.0)) == "#BD0026"
    ensures GetColor(Some(10.0)) == DefaultColor
    ensures GetColor(Some(0.0)) == DefaultColor
    ensures GetColor(Some(-5.0)) == DefaultColor
  {
  }
}

=== FILE: decimal.dfy ===
/** Decimal rendering of mathematical integers, together with a parser that
    undoes it. JavaScript's `'' + n` agrees with it for integral numbers of
    magnitude below 1e21; larger ones are rendered in exponent form. */
module Decimal {

  predicate IsDigit(c: char) {
    '0' <= c <= '9'
  }

  function DigitChar(d: nat): (c: char)
    requires d < 10
    ensures IsDigit(c)
  {
    ('0' as int + d) as char
  }

  function DigitValue(c: char): (d: nat)
    requires IsDigit(c)
    ensures d < 10
    ensures DigitChar(d) == c
  {
    c as int - '0' as int
  }

  /** Canonical decimal text: only digits, at least one, and no leading zero
      unless the text is exactly "0". */
  predicate Canonical(s: string) {
    && |s| >= 1
    && (forall i :: 0 <= i < |s| ==> IsDigit(s[i]))
    && (s[0] == '0' ==> |s| == 1)
  }

  /** Decimal digits of a natural number, most significant first. */
  function NatToString(n: nat): (s: string)
    ensures Canonical(s)
    ensures n < 10 <==> |s| == 1
  {
    if n < 10 then [DigitChar(n)]
    else NatToString(n / 10) + [DigitChar(n % 10)]
  }

  /** Value of a string of digits, read from the most significant end. */
  function ParseNat(s: string): (n: nat)
    requires forall i :: 0 <= i < |s| ==> IsDigit(s[i])
  {
    if |s| == 0 then 0
    else ParseNat(s[..|s| - 1]) * 10 + DigitValue(s[|s| - 1])
  }

  /** JavaScript renders a negative integral number with a leading minus sign. */
  function IntToString(n: int): (s: string)
    ensures |s| >= 1
    ensures n < 0 <==> s[0] == '-'
    ensures n >= 0 ==> Canonical(s)
    ensures n < 0 ==> Canonical(s[1..])
  {
    if n < 0 then "-" + NatToString(-n) else NatToString(n)
  }

  /** Inverse of IntToString on its image. */
  function ParseInt(s: string): (n: int)
    requires |s| >= 1
    requires s[0] == '-' ==> Canonical(s[1..])
    requires s[0] != '-' ==> Canonical(s)
  {
    if s[0] == '-' then -(ParseNat(s[1..]) as int) else ParseNat(s)
  }

  lemma {:induction false} ParseNatOfNatToString(n: nat)
    ensures ParseNat(NatToString(n)) == n
  {
    var s := NatToString(n);
    if n >= 10 {
      var p := NatToString(n / 10);
      assert s == p + [DigitChar(n % 10)];
      assert s[..|s| - 1] == p;
      ParseNatOfNatToString(n / 10);
    }
  }

  /** Rendering a number and reading it back gives the number. */
  lemma IntToStringRoundTrip(n: int)
    ensures ParseInt(IntToString(n)) == n
  {
    if n < 0 {
      assert IntToString(n)[1..] == NatToString(-n);
      ParseNatOfNatToString(-n);
    } else {
      ParseNatOfNatToString(n);
    }
  }

  /** Distinct numbers render as distinct text. */
  lemma IntToStringInjective(m: int, n: int)
    requires IntToString(m) == IntToString(n)
    ensures m == n
  {
    IntToStringRoundTrip(m);
    IntToStringRoundTrip(n);
  }
}

=== FILE: feature_style.dfy ===
/** The style record each state polygon is drawn with, and the emphasised
    style a hovered polygon is given. */
module FeatureStyle {
  import opened Options
  import opened ColorScale

  /** The properties of a GeoJSON feature that the styling reads: its display
      name and its density, which may be absent from the record. */
  datatype Properties = Properties(name: string, density: Option<real>)

  /** A feature of the collection; its geometry is the map library's concern.
      A GeoJSON feature's properties member may be null. */
  datatype Feature = Feature(properties: Option<Properties>)

  /** A path style: fill colour, stroke weight, stroke opacity, stroke colour,
      dash pattern and fill opacity. */
  datatype StyleRecord = StyleRecord(
    fillColor: string,
    weight: int,
    opacity: real,
    color: string,
    dashArray: string,
    fillOpacity: real)

  /** A partial style: the fields that are present replace the base ones. */
  datatype StyleOverride = StyleOverride(
    fillColor: Option<string>,
    weight: Option<int>,
    opacity: Option<real>,
    color: Option<string>,
    dashArray: Option<string>,
    fillOpacity: Option<real>)

  /** The stroke part of every feature's initial style. */
  const BaseWeight: int := 2
  const BaseOpacity: real := 1.0
  const BaseColor: string := "white"
  const BaseDashArray: string := "3"
  const BaseFillOpacity: real := 0.7

  /** The initial style drawn from a properties record: its fill colour is the
      colour of the density's bucket, every other field is fixed. */
  function PropertiesStyle(p: Properties): (s: StyleRecord)
    ensures s.fillColor == Palette[BucketIndex(p.density)]
    ensures s.weight == BaseWeight && s.opacity == BaseOpacity && s.color == BaseColor
    ensures s.dashArray == BaseDashArray && s.fillOpacity == BaseFillOpacity
  {
    GetColorIsPaletteAtBucket(p.density);
    StyleRecord(
      GetColor(p.density),
      BaseWeight,
      BaseOpacity,
      BaseColor,
      BaseDashArray,
      BaseFillOpacity)
  }

  /** The style callback on a feature. Reading the density of null properties
      raises a TypeError, which None stands for: no style is produced, and
      nothing from the construction of the first styled layer onward runs. */
  function StyleFor(f: Feature): (s: Option<StyleRecord>)
    ensures s.None? <==> f.properties.None?
    ensures s.Some? ==> s.value.fillColor == Palette[BucketIndex(f.properties.value.density)]
    ensures s.Some? ==> s.value.weight == BaseWeight && s.value.opacity == BaseOpacity
    ensures s.Some? ==> s.value.color == BaseColor && s.value.dashArray == BaseDashArray
    ensures s.Some? ==> s.value.fillOpacity == BaseFillOpacity
  {
    match f.properties
    case None => None
    case Some(p) => Some(PropertiesStyle(p))
  }

  /** The partial style that sets nothing. */
  const NoOverride: StyleOverride := StyleOverride(None, None, None, None, None, None)

  /** True when every field the override sets already has that value in the base. */
  predicate AgreesWith(o: StyleOverride, base: StyleRecord) {
    && (o.fillColor.None? || o.fillColor.value == base.fillColor)
    && (o.weight.None? || o.weight.value == base.weight)
    && (o.opacity.None? || o.opacity.value == base.opacity)
    && (o.color.None? || o.color.value == base.color)
    && (o.dashArray.None? || o.dashArray.value == base.dashArray)
    && (o.fillOpacity.None? || o.fillOpacity.value == base.fillOpacity)
  }

  /** Merging a partial style over a full one: the empty override is the
      identity, every field the override sets wins whatever the base holds,
      every field it leaves unset keeps the base's value, and the merge changes nothing exactly when the override agrees with the base. */
  function Apply(base: StyleRecord, o: StyleOverride): (r: StyleRecord)
    ensures o == NoOverride ==> r == base
    ensures o.fillColor.Some? ==> r.fillColor == o.fillColor.value
    ensures o.weight.Some? ==> r.weight == o.weight.value
    ensures o.opacity.Some? ==> r.opacity == o.opacity.value
    ensures o.color.Some? ==> r.color == o.color.value
    ensures o.dashArray.Some? ==> r.dashArray == o.dashArray.value
    ensures o.fillOpacity.Some? ==> r.fillOpacity == o.fillOpacity.value
    ensures o.fillColor.None? ==> r.fillColor == base.fillColor
    ensures o.weight.None? ==> r.weight == base.weight
    ensures o.opacity.None? ==> r.opacity == base.opacity
    ensures o.color.None? ==> r.color == base.color
    ensures o.dashArray.None? ==> r.dashArray == base.dashArray
    ensures o.fillOpacity.None? ==> r.fillOpacity == base.fillOpacity
    ensures r == base <==> AgreesWith(o, base)
  {
    StyleRecord(
      o.fillColor.GetOr(base.fillColor),
      o.weight.GetOr(base.weight),
      o.opacity.GetOr(base.opacity),
      o.color.GetOr(base.color),
      o.dashArray.GetOr(base.dashArray),
      o.fillOpacity.GetOr(base.fillOpacity))
  }

  /** The emphasis given to a hovered feature: thick grey solid stroke. */
  const HighlightOverride: StyleOverride :=
    StyleOverride(None, Some(5), None, Some("#666"), Some(""), Some(0.7))

  /** The style of a hovered feature. */
  function Highlighted(base: StyleRecord): (r: StyleRecord)
    ensures r.fillColor == base.fillColor && r.opacity == base.opacity
    ensures r.weight == 5 && r.color == "#666" && r.dashArray == "" && r.fillOpacity == 0.7
  {
    Apply(base, HighlightOverride)
  }

  /** The initial style reads nothing of a feature but its density: two
      features are styled alike exactly when both lack properties or both
      have densities in the same bucket. */
  lemma StyleDependsOnlyOnDensity(f: Feature, g: Feature)
    ensures StyleFor(f) == StyleFor(g) <==>
      || (f.properties.None? && g.properties.None?)
      || (&& f.properties.Some? && g.properties.Some?
          && BucketIndex(f.properties.value.density) == BucketIndex(g.properties.value.density))
  {
    PaletteDistinct();
  }

  /** Merging the same partial style twice is the same as merging it once,
      so repeated hover events leave the same style. */
  lemma ApplyIdempotent(base: StyleRecord, o: StyleOverride)
    ensures Apply(Apply(base, o), o) == Apply(base, o)
  {
  }

  /** Hovering keeps the density colour and changes only the stroke: two
      features' highlighted styles differ exactly when their buckets do. */
  lemma HighlightKeepsDensityColor(p: Properties, q: Properties)
    ensures Highlighted(PropertiesStyle(p)).fillColor == GetColor(p.density)
    ensures Highlighted(PropertiesStyle(p)) == Highlighted(PropertiesStyle(q)) <==>
      BucketIndex(p.density) == BucketIndex(q.density)
  {
    GetColorIsPaletteAtBucket(p.density);
    PaletteDistinct();
  }

  /** Every field the highlight leaves alone keeps its initial value, and every
      field it sets differs from the initial one except the fill opacity. */
  lemma HighlightChangesStrokeOnly(p: Properties)
    ensures var s := PropertiesStyle(p); var h := Highlighted(s);
      && h.fillColor == s.fillColor && h.opacity == s.opacity && h.fillOpacity == s.fillOpacity
      && h.weight != s.weight && h.color != s.color && h.dashArray != s.dashArray
  {
  }
}

=== FILE: info_panel.dfy ===
/** The info panel: a heading followed either by the hovered state's name and
    density or by a prompt to hover, and how its text follows mouse events. */
module InfoPanel {
  import opened Options

  /** What the panel is shown of a feature: its name and its density as text. */
  datatype InfoProps = InfoProps(name: string, density: string)

  const Heading: string := "<h4>US Population Density</h4>"
  const Placeholder: string := "Hover over a state"
  const NameOpen: string := "<b>"
  const NameClose: string := "</b><br />"
  const Unit: string := " people / mi<sup>2</sup>"

  /** The panel's markup for the given properties, or for none. */
  function InfoText(props: Option<InfoProps>): (t: string)
    ensures Heading <= t
    ensures props.None? ==> t[|Heading|..] == Placeholder
    ensures props.Some? ==>
      var p := props.value;
      var n := |Heading| + |NameOpen|;
      && |t| == n + |p.name| + |NameClose| + |p.density| + |Unit|
      && t[|Heading|..n] == NameOpen
      && t[n..n + |p.name|] == p.name
      && t[n + |p.name|..n + |p.name| + |NameClose|] == NameClose
      && t[|t| - |Unit| - |p.density|..|t| - |Unit|] == p.density
      && t[|t| - |Unit|..] == Unit
  {
    Heading +
      (match props
       case Some(p) => NameOpen + p.name + NameClose + p.density + Unit
       case None => Placeholder)
  }

  /** The first position of c in s, or |s| when it does not occur. */
  function IndexOf(s: string, c: char): (k: nat)
    ensures k <= |s|
    ensures forall i :: 0 <= i < k ==> s[i] != c
    ensures k < |s| ==> s[k] == c
  {
    if |s| == 0 then 0
    else if s[0] == c then 0
    else 1 + IndexOf(s[1..], c)
  }

  /** Reads the panel's markup back: Some(None) for the prompt, Some(Some(p))
      for a feature's properties, None for text the panel never shows. */
  function ParseInfo(t: string): (r: Option<Option<InfoProps>>) {
    if !(Heading <= t) then None
    else
      var body := t[|Heading|..];
      if body == Placeholder then Some(None)
      else if !(NameOpen <= body) then None
      else ParseNamed(body[|NameOpen|..])
  }

  /** Reads "name</b><br />density unit": the name runs up to the first '<'. */
  function ParseNamed(rest: string): (r: Option<Option<InfoProps>>) {
    var k := IndexOf(rest, '<');
    var after := rest[k..];
    if !(NameClose <= after) then None
    else
      match ParseDensity(after[|NameClose|..])
      case None => None
      case Some(d) => Some(Some(InfoProps(rest[..k], d)))
  }

  /** Reads "density unit" by stripping the unit from the end. */
  function ParseDensity(tail: string): (r: Option<string>) {
    if |tail| < |Unit| || tail[|tail| - |Unit|..] != Unit then None
    else Some(tail[..|tail| - |Unit|])
  }

  /** A name the panel can show unambiguously: it holds no markup. */
  predicate PlainName(p: InfoProps) {
    '<' !in p.name
  }

  /** The panel's two shapes are read back exactly: the prompt as no
      properties, and a feature's name and density as themselves. */
  lemma ParseInfoText(props: Option<InfoProps>)
    requires props.Some? ==> PlainName(props.value)
    ensures ParseInfo(InfoText(props)) == Some(props)
  {
    match props
    case None =>
      var t := Heading + Placeholder;
      assert t[..|Heading|] == Heading;
      assert t[|Heading|..] == Placeholder;
      assert InfoText(props) == t;
    case Some(p) =>
      ParseFeatureText(p);
      assert InfoText(props) == Heading + (NameOpen + p.name + NameClose + p.density + Unit);
  }

  /** The Some case of ParseInfoText, on the markup as built. */
  lemma ParseFeatureText(p: InfoProps)
    requires PlainName(p)
    ensures ParseInfo(Heading + (NameOpen + p.name + NameClose + p.density + Unit)) == Some(Some(p))
  {
    var body := NameOpen + (p.name + (NameClose + p.density + Unit));
    assert body == NameOpen + p.name + NameClose + p.density + Unit;
    var t := Heading + body;
    assert t[..|Heading|] == Heading;
    assert t[|Heading|..] == body;
    assert body[..|NameOpen|] == NameOpen;
    assert body[|NameOpen|..] == p.name + (NameClose + p.density + Unit);
    assert body != Placeholder by {
      assert body[0] == '<' && Placeholder[0] == 'H';
    }
    ParseNamedOf(p);
  }

  lemma ParseNamedOf(p: InfoProps)
    requires PlainName(p)
    ensures ParseNamed(p.name + (NameClose + p.density + Unit)) == Some(Some(p))
  {
    var after := NameClose + (p.density + Unit);
    assert after == NameClose + p.density + Unit;
    var rest := p.name + after;
    assert after[0] == '<';
    IndexOfPrefix(p.name, after, '<');
    assert rest[..|p.name|] == p.name;
    assert rest[|p.name|..] == after;
    assert after[..|NameClose|] == NameClose;
    assert after[|NameClose|..] == p.density + Unit;
    ParseDensityOf(p.density);
  }

  lemma ParseDensityOf(d: string)
    ensures ParseDensity(d + Unit) == Some(d)
  {
    var tail := d + Unit;
    assert tail[|tail| - |Unit|..] == Unit;
    assert tail[..|tail| - |Unit|] == d;
  }

  /** The first c of a + b is at |a| when a holds none and b starts with c. */
  lemma {:induction false} IndexOfPrefix(a: string, b: string, c: char)
    requires c !in a
    requires |b| > 0 && b[0] == c
    ensures IndexOf(a + b, c) == |a|
  {
    if |a| > 0 {
      assert (a + b)[1..] == a[1..] + b;
      IndexOfPrefix(a[1..], b, c);
    } else {
      assert a + b == b;
    }
  }

  /** Different properties with plain names give different panel text. */
  lemma InfoTextInjective(p: Option<InfoProps>, q: Option<InfoProps>)
    requires p.Some? ==> PlainName(p.value)
    requires q.Some? ==> PlainName(q.value)
    requires InfoText(p) == InfoText(q)
    ensures p == q
  {
    ParseInfoText(p);
    ParseInfoText(q);
  }

  /** The mouse events a feature layer reacts to. */
  datatype Event = MouseOver(props: InfoProps) | MouseOut | Click

  /** One event's effect on the panel markup: hovering shows the feature,
      leaving shows the prompt, a click only moves the map. */
  function Step(html: string, e: Event): (r: string) {
    match e
    case MouseOver(p) => InfoText(Some(p))
    case MouseOut => InfoText(None)
    case Click => html
  }

  /** The panel markup after a serialized stream of events; it starts with the
      prompt, written when the panel is added to the map. */
  function Replay(events: seq<Event>): (html: string)
    ensures Heading <= html
  {
    if |events| == 0 then InfoText(None)
    else Step(Replay(events[..|events| - 1]), events[|events| - 1])
  }

  /** Whatever the stream, the panel shows either the prompt or the text of a
      feature hovered at some point of the stream. */
  lemma {:induction false} ReplayIsPanelText(events: seq<Event>)
    ensures || Replay(events) == InfoText(None)
            || exists k :: 0 <= k < |events| && events[k].MouseOver? && Replay(events) == InfoText(Some(events[k].props))
  {
    if |events| > 0 {
      var prefix := events[..|events| - 1];
      ReplayIsPanelText(prefix);
      if Replay(events) != InfoText(None) && !events[|events| - 1].MouseOver? {
        assert Replay(events) == Replay(prefix);
        var k :| 0 <= k < |prefix| && prefix[k].MouseOver? && Replay(prefix) == InfoText(Some(prefix[k].props));
        assert prefix[k] == events[k];
      }
    }
  }

  /** When the panel is added to the map it shows the prompt. */
  lemma ReplayStartsWithPrompt()
    ensures Replay([]) == Heading + Placeholder
    ensures ParseInfo(Replay([])) == Some(None)
  {
    ParseInfoText(None);
  }

  /** The panel shows the properties of the last hover event that has not been
      followed by a leave: after a MouseOver at k followed only by clicks it
      shows that feature. */
  lemma {:induction false} ReplayShowsLastHover(events: seq<Event>, k: nat)
    requires k < |events| && events[k].MouseOver?
    requires forall j :: k < j < |events| ==> events[j].Click?
    ensures Replay(events) == InfoText(Some(events[k].props))
  {
    if k < |events| - 1 {
      var prefix := events[..|events| - 1];
      assert prefix[k] == events[k];
      forall j | k < j < |prefix|
        ensures prefix[j].Click?
      {
        assert prefix[j] == events[j];
      }
      ReplayShowsLastHover(prefix, k);
    }
  }

  /** With no hover since the last leave, or none at all, the panel shows the prompt. */
  lemma {:induction false} ReplayShowsPrompt(events: seq<Event>)
    requires forall j :: 0 <= j < |events| && events[j].MouseOver? ==>
      exists m :: j < m < |events| && events[m].MouseOut?
    ensures Replay(events) == InfoText(None)
  {
    if |events| > 0 {
      var last := events[|events| - 1];
      if !last.MouseOut? {
        var prefix := events[..|events| - 1];
        assert !last.MouseOver?;
        forall j | 0 <= j < |prefix| && prefix[j].MouseOver?
          ensures exists m :: j < m < |prefix| && prefix[m].MouseOut?
        {
          assert events[j] == prefix[j];
          var m :| j < m < |events| && events[m].MouseOut?;
          assert m != |events| - 1;
          assert prefix[m] == events[m];
        }
        ReplayShowsPrompt(prefix);
      }
    }
  }
}

=== FILE: legend.dfy ===
/** The legend: one colour swatch and one range label per breakpoint of its
    own copy of the density grades. */
module Legend {
  import opened Options
  import opened Decimal
  import opened ColorScale

  /** The legend's hard-coded copy of the breakpoints, lowest first. */
  const Grades: seq<int> := [0, 10, 20, 50, 100, 200, 500, 1000]

  const SwatchOpen: string := "<i style=\"background:"
  const SwatchClose: string := "\"></i> "
  const RangeDash: string := "&ndash;"
  const LineBreak: string := "<br>"
  const OpenEnd: string := "+"

  /** JavaScript truthiness of `grades[j]`: an index past the end reads
      `undefined`, and the number 0 is falsy. */
  predicate Truthy(grades: seq<int>, j: nat) {
    j < |grades| && grades[j] != 0
  }

  /** The swatch colour of row i: the classifier's colour just above grade i. */
  function Swatch(grades: seq<int>, i: nat): (c: string)
    requires i < |grades|
    ensures c in Palette
  {
    GetColor(Some((grades[i] + 1) as real))
  }

  /** The label of row i: "g_i&ndash;g_{i+1}" and a line break while a next grade
      reads as truthy, "g_i+" otherwise. */
  function Label(grades: seq<int>, i: nat): (text: string)
    requires i < |grades|
  {
    IntToString(grades[i]) +
      (if Truthy(grades, i + 1) then RangeDash + IntToString(grades[i + 1]) + LineBreak else OpenEnd)
  }

  /** The markup appended for row i. */
  function Row(grades: seq<int>, i: nat): (row: string)
    requires i < |grades|
  {
    SwatchOpen + Swatch(grades, i) + SwatchClose + Label(grades, i)
  }

  /** The rows of the legend in order, one per grade. */
  function Rows(grades: seq<int>): (rows: seq<string>)
    ensures |rows| == |grades|
    ensures forall i :: 0 <= i < |rows| ==> SwatchOpen + Swatch(grades, i) <= rows[i]
  {
    seq(|grades|, i requires 0 <= i < |grades| => Row(grades, i))
  }

  function Concat(parts: seq<string>): (s: string) {
    if |parts| == 0 then "" else Concat(parts[..|parts| - 1]) + parts[|parts| - 1]
  }

  /** The legend loop: starting from an empty container, append each row's
      markup in turn. */
  method RenderLegend(grades: seq<int>) returns (html: string)
    ensures html == Concat(Rows(grades))
  {
    var rows := Rows(grades);
    html := "";
    var i := 0;
    while i < |grades|
      invariant i <= |grades|
      invariant html == Concat(rows[..i])
    {
      assert rows[..i + 1][..i] == rows[..i];
      html := html + Row(grades, i);
      i := i + 1;
    }
    assert rows[..|grades|] == rows;
  }

  /** The legend's copy of the breakpoints is the classifier's, with 0 in front. */
  lemma GradesMatchThresholds()
    ensures Grades == [0] + Thresholds
  {
  }

  /** For increasing integer grades, the value just above grade i exceeds
      exactly i of the grades after the first. */
  lemma SwatchValueBucket(grades: seq<int>, i: nat)
    requires StrictlyIncreasing(grades)
    requires i < |grades|
    ensures CountBelow(grades[1..], (grades[i] + 1) as real) == i
  {
    var ts := grades[1..];
    assert StrictlyIncreasing(ts);
    if i > 0 {
      assert ts[i - 1] == grades[i];
    }
    if i < |ts| {
      assert ts[i] == grades[i + 1];
    }
    CountBelowSorted(ts, (grades[i] + 1) as real, i);
  }

  /** Legend and classifier agree: swatch i is the i-th colour in ascending
      order, and the swatches are pairwise distinct. */
  lemma SwatchesMatchPalette()
    ensures |Grades| == |Palette|
    ensures forall i :: 0 <= i < |Grades| ==> Swatch(Grades, i) == Palette[i]
    ensures forall i, j :: 0 <= i < j < |Grades| ==> Swatch(Grades, i) != Swatch(Grades, j)
  {
    ThresholdsSorted();
    GradesMatchThresholds();
    forall i | 0 <= i < |Grades|
      ensures Swatch(Grades, i) == Palette[i]
    {
      assert StrictlyIncreasing(Grades);
      assert Grades[1..] == Thresholds;
      SwatchValueBucket(Grades, i);
      GetColorIsPaletteAtBucket(Some((Grades[i] + 1) as real));
    }
    PaletteDistinct();
  }

  /** Each row's label tells the truth about the classifier: every density in
      the row's range (above its grade, up to the next grade, or without bound
      on the last row) is drawn in the row's swatch colour. */
  lemma LabelRangesMatchClassifier(i: nat, v: real)
    requires i < |Grades|
    requires (Grades[i] as real) < v
    requires i + 1 < |Grades| ==> v <= Grades[i + 1] as real
    ensures GetColor(Some(v)) == Swatch(Grades, i)
  {
    SwatchesMatchPalette();
    BucketOfValue(v, i);
    GetColorIsPaletteAtBucket(Some(v));
  }

  /** For grades that increase from a non-negative start, every row but the last
      shows a closed range and the last one an open-ended range. */
  lemma LabelShape(grades: seq<int>, i: nat)
    requires StrictlyIncreasing(grades)
    requires |grades| > 0 && grades[0] >= 0
    requires i < |grades|
    ensures i + 1 < |grades| ==>
      Label(grades, i) == IntToString(grades[i]) + RangeDash + IntToString(grades[i + 1]) + LineBreak
    ensures i + 1 == |grades| ==> Label(grades, i) == IntToString(grades[i]) + OpenEnd
  {
    if i + 1 < |grades| {
      assert grades[0] < grades[i + 1];
    }
  }

  /** The legend has one row per grade; rows 0 to 6 read "g_i&ndash;g_{i+1}" and
      the last one reads "1000+". */
  lemma LegendLabels()
    ensures |Rows(Grades)| == 8
    ensures forall i :: 0 <= i < 7 ==>
      Label(Grades, i) == IntToString(Grades[i]) + RangeDash + IntToString(Grades[i + 1]) + LineBreak
    ensures Label(Grades, 7) == "1000+"
  {
    ThresholdsSorted();
    GradesMatchThresholds();
    assert StrictlyIncreasing(Grades);
    forall i | 0 <= i < 7
      ensures Label(Grades, i) == IntToString(Grades[i]) + RangeDash + IntToString(Grades[i + 1]) + LineBreak
    {
      LabelShape(Grades, i);
    }
    LabelShape(Grades, 7);
    assert IntToString(1000) == "1000" by {
      assert NatToString(1) == "1";
      assert NatToString(10) == "10";
      assert NatToString(100) == "100";
    }
  }

  /** The markup the legend loop appends, row by row: the swatch of the row's
      palette colour, then its label, "g_i&ndash;g_{i+1}" with a line break for
      rows 0 to 6 and "1000+" for the last. */
  lemma LegendRowsText()
    ensures |Rows(Grades)| == 8
    ensures forall i :: 0 <= i < 7 ==>
      Rows(Grades)[i] == SwatchOpen + Palette[i] + SwatchClose
        + IntToString(Grades[i]) + RangeDash + IntToString(Grades[i + 1]) + LineBreak
    ensures Rows(Grades)[7] == SwatchOpen + "#800026" + SwatchClose + "1000+"
  {
    LegendLabels();
    forall i | 0 <= i < 7
      ensures Rows(Grades)[i] == SwatchOpen + Palette[i] + SwatchClose
        + IntToString(Grades[i]) + RangeDash + IntToString(Grades[i + 1]) + LineBreak
    {
      RowOfGrades(i);
    }
    RowOfGrades(7);
  }

  /** Row i of the legend is the swatch of palette colour i followed by label i. */
  lemma RowOfGrades(i: nat)
    requires i < |Grades|
    ensures Rows(Grades)[i] == SwatchOpen + Palette[i] + SwatchClose + Label(Grades, i)
  {
    SwatchesMatchPalette();
  }
}

=== FILE: options.dfy ===
/** A value that may be absent. */
module Options {

  datatype Option<+T> = None | Some(value: T) {

    /** Returns the value held in Some, or the default when None. */
    function GetOr(default: T): (r: T)
      ensures Some? ==> r == value
      ensures None? ==> r == default
    {
      match this
      case Some(v) => v
      case None => default
    }
  }
}
